=== FILE: README.md ===
# Magnifying glass: drag geometry

A model of the drag geometry of the `Magnify` widget in `src/main.js`. The widget puts a
draggable lens over an image box. The lens shows a magnified image, and its background pans
as the lens is dragged. The model covers:

- the zoom level read once from the box's `data-zoom` attribute, and the lens background
  size it scales (module `Zoom`);
- the four side checks that decide whether a move is dropped (module `Bounds`);
- the background pan terms written on every accepted move (module `Pan`);
- the magnifier state with `whenDown`, `whenMove`, `movePosition` and the press/move/release
  gating of the mouse and touch listeners (module `Magnify`);
- event sequences and the invariants they keep (module `Session`).

Coordinates are `real`. Measured layout values (`offsetWidth`, `offsetLeft`, `pageX`, ...)
are inputs, not computed. A pointer press carries a flag that says whether its target lies
inside the lens. A data attribute enters as the number JavaScript's unary `+` produces from
it: a finite number or NaN.

Points where the code does not do what the widget's description suggests. The model follows
the code in each case:

- The top check compares the candidate Y with the lens's *left* offset (`y < left && top <= 0`).
  It is kept verbatim in `Bounds.OutOfYTop`. `Bounds.TopCheckLetsLensRise` shows a lens already
  above the top edge being accepted further up.
- The left, right and bottom checks do not keep the lens inside the box. They only stop motion
  past an edge that the lens already touches or has passed. `Bounds.InsideLensCanJumpOut` shows an accepted
  move from inside to well outside the box.
- Because of that comparison, a lens whose top offset is at most 0 is frozen: every candidate
  whose Y is less than the lens's left offset is rejected, including moves down and sideways
  (`Bounds.AcceptedAtTopEdge`, `Bounds.TopEdgeFreezesLens`).
- A rejected move is dropped. It is not clamped to the edge.
- On the negative side the pan term is x(1 - 0.8 level), so its size grows strictly with the
  distance from the origin at every level except 1.25 (`Pan.PanGrowsOnNegativeSide`; 10/7 for the
  vertical term). At level 1.25 exactly, every negative left offset gives a horizontal term of 0
  in exact arithmetic (`Pan.PanXFlatOnNegativeSide`); in the page's floating point it is only
  close to 0.
- A negative zoom attribute is kept. Only falsy values (absent, NaN, 0) fall back to 1.

## Model

| member | source | states |
|---|---|---|
| Numbers.Abs | src/main.js:43-44 | the absolute value is non-negative and equals the argument or its negation |
| Numbers.Truthy | src/main.js:17 | JavaScript truthiness of a number: false exactly for NaN and 0 |
| Zoom.ToNumber | src/main.js:17 | unary `+` on the attribute is NaN exactly when the attribute is absent or not a number, and the parsed number otherwise |
| Zoom.LevelFromAttribute | src/main.js:17 | the level is never 0; it is the attribute's number exactly when that number is a nonzero finite value, and 1 otherwise |
| Zoom.NegativeLevelIsKept | src/main.js:17 | a negative attribute value becomes the level unchanged |
| Zoom.FalsyAttributeDefaultsToOne | src/main.js:17 | an absent attribute, NaN and 0 all give level 1 |
| Zoom.BackgroundSize | src/main.js:67-68 | each side of the background is the box side times the level; at level 1 the background has the box's own size; the box's aspect ratio is kept; a level above 1 enlarges both sides of a box with positive sides |
| Zoom.DefaultZoomShowsBoxSize | src/main.js:67-68 | with no usable zoom attribute the lens background has the box's size |
| Bounds.OutOfXLeft | src/main.js:161-163 | rejects a candidate X less than the lens's left offset when that offset is at most 0 |
| Bounds.OutOfXRight | src/main.js:172-176 | rejects a candidate X greater than the left offset when box width minus lens width minus left is at most 0 |
| Bounds.OutOfYTop | src/main.js:185-187 | rejects a candidate Y less than the lens's LEFT offset when its top offset is at most 0, as written |
| Bounds.OutOfYBottom | src/main.js:196-200 | rejects a candidate Y greater than the top offset when box height minus lens height minus top is at most 0 |
| Bounds.OutOfBound | src/main.js:209-216 | a candidate is out of bounds when any of the four side checks rejects it |
| Bounds.StayingPutPassesThreeSides | src/main.js:161-200 | the left, right and bottom checks never reject a candidate equal to the current position |
| Bounds.StayingPutRejectedIff | src/main.js:209-216 | a candidate equal to the current position is rejected exactly when top <= 0 and top < left |
| Bounds.AcceptedNotFurtherLeft | src/main.js:161-163 | when left <= 0, every accepted candidate has X >= left |
| Bounds.AcceptedNotFurtherRight | src/main.js:172-176 | when the room on the right is used up, every accepted candidate has X <= left |
| Bounds.AcceptedNotFurtherDown | src/main.js:196-200 | when the room below is used up, every accepted candidate has Y <= top |
| Bounds.AcceptedAtTopEdge | src/main.js:185-187 | when top <= 0, every accepted candidate has Y >= left (not >= top) |
| Bounds.TopCheckLetsLensRise | src/main.js:185-187 | a lens at top -10 and left -50 accepts a candidate at Y = -40, above its current top |
| Bounds.TopEdgeFreezesLens | src/main.js:185-187 | a lens at left 50, top 0 rejects candidates (50, 10), (60, 0) and (50, 49) and accepts (50, 50) |
| Bounds.InsideLensCanJumpOut | src/main.js:209-216 | a lens at left 5 accepts a candidate at X = -100, outside the box |
| Pan.PanX | src/main.js:246 | the horizontal term is x(1 + 0.8 level) for x >= 0 and x(1 - 0.8 level) for x <= 0 |
| Pan.PanY | src/main.js:250 | the vertical term is y(1 + 0.7 level) for y >= 0 and y(1 - 0.7 level) for y <= 0 |
| Pan.PanAtOrigin | src/main.js:243-252 | both terms are 0 at position 0 for every level |
| Pan.PanIncreasesOnPositiveSide | src/main.js:243-252 | with a positive level, both terms strictly increase on the non-negative side |
| Pan.PanGrowsOnNegativeSide | src/main.js:243-252 | on the negative side the size of the horizontal term strictly grows with the distance from 0 unless the level is 1.25, and that of the vertical term unless it is 10/7 |
| Pan.PanXFlatOnNegativeSide | src/main.js:246 | at level 1.25 the horizontal term is 0 for every negative position |
| Magnify.Create | src/main.js:13-21 | a new magnifier is bound to the given box and has anchor (0, 0), the attribute's level, the lens at its start offsets with the initial percentage background, and no drag |
| Magnify.LensBackgroundSize | src/main.js:67-83 | each side of the lens background is the box side times the magnifier's level; it keeps the box's aspect ratio and equals the box at level 1 |
| Magnify.DefaultZoomLensShowsBoxSize | src/main.js:17-68 | a new magnifier without a usable zoom attribute has a lens background of the box's own size |
| Magnify.WhenDown | src/main.js:28-34 | anchor plus pointer equals the lens offsets on each axis; the lens, box, level and phase are unchanged |
| Magnify.Candidate | src/main.js:42-47 | the candidate is never right of or below the pointer, and its distance from the pointer is the anchor's absolute value |
| Magnify.MovePosition | src/main.js:229-234 | the lens is placed at the candidate and its background holds that candidate's pan terms; nothing else changes |
| Magnify.WhenMove | src/main.js:42-52 | an accepted candidate becomes the lens position with matching pan terms; a rejected one leaves the whole state unchanged; background/lens sync is preserved |
| Magnify.Press | src/main.js:104-146 | a press outside the lens changes nothing; a press on the lens starts a drag and sets anchor = lens offsets minus pointer, without moving the lens |
| Magnify.Move | src/main.js:98-146 | a move outside a drag changes nothing; during a drag it is `whenMove` |
| Magnify.Release | src/main.js:118-150 | a release ends the drag and leaves lens, anchor, box and level as they were |
| Magnify.PressThenMoveSamePoint | src/main.js:28-47 | with the pointer at or right of and below the lens corner, a move to the press point yields the lens position at press time as candidate |
| Magnify.PressThenMoveMirrors | src/main.js:28-47 | the round trip holds on an axis exactly when the pointer is not left of (above) the lens; otherwise the candidate is mirrored about the pointer |
| Magnify.PressThenMoveKeepsLensInPlace | src/main.js:28-52 | under the same condition, press then move to the same point leaves the lens offsets as they were |
| Magnify.MoveAppliedIffAccepted | src/main.js:49-51 | during a drag an accepted move is applied exactly, a rejected move is a no-op, and the state changes only when the candidate is accepted |
| Magnify.WhenMoveIdempotent | src/main.js:138-150 | handling the same move twice, as a doubled move listener does, gives the same state as handling it once |
| Magnify.DragScenario | src/main.js:28-52 | box 400x300, lens 100x100 at (150, 100), level 2: press (200, 150) then move (160, 120) moves the lens to (110, 70) with pan terms (286, 168) |
| Session.Step | src/main.js:97-152 | one event keeps box, level, lens size and background sync; only a press changes the anchor; a move while idle changes nothing; a release ends the drag without moving the lens; a press on the lens starts a drag without moving it |
| Session.Run | src/main.js:97-152 | over any events: box, level and lens size never change; background/lens sync is preserved; moves outside a drag are ignored; only a press changes the anchor; the lens has not moved while the background keeps its initial value; a final release leaves no drag |
| Session.ReleaseFreezesLens | src/main.js:148-150 | after a release, any number of moves leave the state as the release left it |
| Session.PressOffLensIgnored | src/main.js:132-136 | when idle, a press outside the lens and the moves after it change nothing |
| Session.ReachableStatesInSync | src/main.js:97-152 | every state reached from a new magnifier keeps the level it was created with and has its background in step with the lens |

## Left out

- Element creation, class names, `draggable`, background image URLs and CSS string building: presentation with no numeric meaning. Only the pixel terms of `background-position` are modelled, without the `-1%` base.
- The initial lens position, a CSS `calc(50% - ...)` expression resolved by the browser. `Magnify.Create` takes the measured start offsets as input. The initial `background-position`, `calc(50% + 4%)` on both axes, is the symbolic value `Initial`.
- Layout measurement: `offsetWidth`, `offsetLeft`, `offsetTop` and `pageX`/`pageY` are inputs. The model assumes the lens's offsets equal the last `left`/`top` written, without the browser's rounding to whole pixels. It also assumes that neither the box nor the lens changes size: the side checks re-read the lens's `offsetWidth`/`offsetHeight` on every move, and the model keeps the measured size fixed.
- Event listener registration and removal, `preventDefault`/`stopPropagation`, and the choice between touch and mouse: one abstract press/move/release event stream stands for both. The `mouseup` listeners that pile up with each press are left out. Each one only removes its own move listener, so the Idle/Dragging gating is the same.
- A second press on the lens during a mouse drag installs a second move listener, so every move until the release is handled twice. The model handles each move once. This changes nothing: handling the same move twice gives the same state as handling it once (`Magnify.WhenMoveIdempotent`).
- Zoom.LevelFromAttribute: the attribute text is not parsed. The input is the number that unary `+` yields, and the infinities that `+"Infinity"` can produce are left out because `real` has none.
- JavaScript numbers are IEEE doubles; the model computes in exact reals, so the coefficients 0.8 and 0.7 are exact and no rounding is modelled.
- The bootstrap loop over `.magnify-box` elements: environment side effects only.

=== FILE: bounds.dfy ===
/** The four side checks that decide whether a candidate lens position is
    dropped. Each one looks at the lens's current offsets (`at`) and at one
    coordinate of the candidate. */
module Bounds {
  import opened Layout

  /** `isOutOfXLeft`: moving left while the lens already touches or passes
      the left edge. */
  predicate OutOfXLeft(at: Point, x: real)
  {
    x < at.x && at.x <= 0.0
  }

  /** `isOutOfXRight`: moving right while the room left on the right side,
      box width minus lens width minus lens left, is used up. */
  predicate OutOfXRight(box: Size, lens: Size, at: Point, x: real)
  {
    x > at.x && box.width - lens.width - at.x <= 0.0
  }

  /** `isOutOfYTop`, as the code has it: the candidate Y is compared with the
      lens's LEFT offset, while the edge test uses its top offset. */
  predicate OutOfYTop(at: Point, y: real)
  {
    y < at.x && at.y <= 0.0
  }

  /** `isOutOfYBottom`: moving down while the room below is used up. */
  predicate OutOfYBottom(box: Size, lens: Size, at: Point, y: real)
  {
    y > at.y && box.height - lens.height - at.y <= 0.0
  }

  /** `isOutOfBound`: any one of the four side checks rejects the candidate. */
  predicate OutOfBound(box: Size, lens: Size, at: Point, c: Point)
  {
    || OutOfXLeft(at, c.x)
    || OutOfXRight(box, lens, at, c.x)
    || OutOfYTop(at, c.y)
    || OutOfYBottom(box, lens, at, c.y)
  }

  /** The left, right and bottom checks use strict comparisons, so they never
      reject a candidate equal to the current position. */
  lemma StayingPutPassesThreeSides(box: Size, lens: Size, at: Point)
    ensures !OutOfXLeft(at, at.x)
    ensures !OutOfXRight(box, lens, at, at.x)
    ensures !OutOfYBottom(box, lens, at, at.y)
  {
  }

  /** A candidate equal to the current position is rejected exactly when the
      top check fires on it: the top offset is at most 0 and below the left
      offset. */
  lemma StayingPutRejectedIff(box: Size, lens: Size, at: Point)
    ensures OutOfBound(box, lens, at, at) <==> (at.y < at.x && at.y <= 0.0)
  {
    StayingPutPassesThreeSides(box, lens, at);
  }

  /** Once the lens touches or passes the left edge, no accepted candidate
      takes it further left. */
  lemma AcceptedNotFurtherLeft(box: Size, lens: Size, at: Point, c: Point)
    requires at.x <= 0.0 && !OutOfBound(box, lens, at, c)
    ensures c.x >= at.x
  {
  }

  /** Once the right-hand room is used up, no accepted candidate takes the
      lens further right. */
  lemma AcceptedNotFurtherRight(box: Size, lens: Size, at: Point, c: Point)
    requires box.width - lens.width - at.x <= 0.0 && !OutOfBound(box, lens, at, c)
    ensures c.x <= at.x
  {
  }

  /** Once the room below is used up, no accepted candidate takes the lens
      further down. */
  lemma AcceptedNotFurtherDown(box: Size, lens: Size, at: Point, c: Point)
    requires box.height - lens.height - at.y <= 0.0 && !OutOfBound(box, lens, at, c)
    ensures c.y <= at.y
  {
  }

  /** What the top check does guarantee: with the top offset at most 0, an
      accepted candidate's Y is at least the lens's left offset. */
  lemma AcceptedAtTopEdge(box: Size, lens: Size, at: Point, c: Point)
    requires at.y <= 0.0 && !OutOfBound(box, lens, at, c)
    ensures c.y >= at.x
  {
  }

  /** Because the top check compares against the left offset, a lens already
      above the top edge can be accepted further up: here it sits at top -10
      and left -50 and the candidate at Y = -40 passes all four checks. */
  lemma TopCheckLetsLensRise()
    ensures var at := Point(-50.0, -10.0);
            var c := Point(-50.0, -40.0);
            !OutOfBound(Size(400.0, 300.0), Size(100.0, 100.0), at, c) && c.y < at.y
  {
  }

  /** A lens at the top edge (left 50, top 0) rejects moves down and
      sideways; only a candidate whose Y reaches the left offset passes. */
  lemma TopEdgeFreezesLens()
    ensures var box := Size(400.0, 300.0);
            var lens := Size(100.0, 100.0);
            var at := Point(50.0, 0.0);
            && OutOfBound(box, lens, at, Point(50.0, 10.0))
            && OutOfBound(box, lens, at, Point(60.0, 0.0))
            && OutOfBound(box, lens, at, Point(50.0, 49.0))
            && !OutOfBound(box, lens, at, Point(50.0, 50.0))
  {
  }

  /** The left, right and bottom checks only stop motion past an edge the
      lens already touches; a lens that is inside can be accepted far
      outside in one move: from left 5 a candidate at X = -100 passes. */
  lemma InsideLensCanJumpOut()
    ensures var at := Point(5.0, 20.0);
            var c := Point(-100.0, 20.0);
            !OutOfBound(Size(400.0, 300.0), Size(100.0, 100.0), at, c) && c.x < 0.0
  {
  }
}

=== FILE: layout.dfy ===
/** Layout values the magnifier reads from the page: element sizes and
    positions, all in CSS pixels. Measured values are inputs of the model. */
module Layout {

  /** The `offsetWidth` / `offsetHeight` pair of an element. */
  datatype Size = Size(width: real, height: real)

  /** A position: `offsetLeft` / `offsetTop` of the lens, or a candidate
      left/top pair computed from the pointer. */
  datatype Point = Point(x: real, y: real)
}

=== FILE: magnify.dfy ===
/** One magnifier: a box, the lens inside it, the zoom level, the drag
    anchor and whether a drag is in progress, with the press, move and
    release operations of the `Magnify` class. */
module Magnify {
  import opened Numbers
  import opened Layout
  import opened Zoom
  import opened Bounds
  import opened Pan

  /** Whether a move listener is installed. */
  datatype Phase = Idle | Dragging

  /** The lens's `background-position`: the initial percentage value
      `calc(50% + 4%)` on both axes, or
      the pixel terms of the last accepted move. */
  datatype Background = Initial | Panned(x: real, y: real)

  /** The lens element: measured size, offsets and background position. */
  datatype Lens = Lens(size: Size, at: Point, background: Background)

  /** The state of one `Magnify` instance. `anchor` is the `$x`/`$y` pair. */
  datatype State = State(box: Size, level: real, lens: Lens, anchor: Point, phase: Phase)

  /** The background position stays in step with the lens offsets: once it
      has been panned, it holds the pan terms of the current offsets. */
  predicate InSync(s: State)
  {
    s.lens.background.Panned? ==>
      s.lens.background == Panned(PanX(s.lens.at.x, s.level), PanY(s.lens.at.y, s.level))
  }

  /** The constructor: anchor (0, 0), level from the attribute, lens at its
      measured starting offsets with the initial background, no drag. */
  function Create(box: Size, lensSize: Size, zoom: ZoomAttribute, start: Point): (s: State)
    ensures s.box == box
    ensures s.level == LevelFromAttribute(zoom) && s.level != 0.0
    ensures s.lens == Lens(lensSize, start, Initial)
    ensures s.anchor == Point(0.0, 0.0) && s.phase == Idle
    ensures InSync(s)
  {
    State(box, LevelFromAttribute(zoom), Lens(lensSize, start, Initial), Point(0.0, 0.0), Idle)
  }

  /** `background-size` of this magnifier's lens. */
  function LensBackgroundSize(s: State): (size: Size)
    ensures size.width == s.level * s.box.width && size.height == s.level * s.box.height
    ensures s.level == 1.0 ==> size == s.box
    ensures size.width * s.box.height == size.height * s.box.width
  {
    BackgroundSize(s.box, s.level)
  }

  /** Without a usable zoom attribute, a new magnifier's lens background has
      the box's own size. */
  lemma DefaultZoomLensShowsBoxSize(box: Size, lensSize: Size, zoom: ZoomAttribute, start: Point)
    requires !Truthy(ToNumber(zoom))
    ensures LensBackgroundSize(Create(box, lensSize, zoom, start)) == box
  {
  }

  /** `whenDown`: remember the offset from the pointer to the lens's
      top-left corner. Nothing is moved. */
  function WhenDown(s: State, px: real, py: real): (r: State)
    ensures r.anchor.x + px == s.lens.at.x && r.anchor.y + py == s.lens.at.y
    ensures r.lens == s.lens && r.box == s.box && r.level == s.level && r.phase == s.phase
  {
    s.(anchor := Point(s.lens.at.x - px, s.lens.at.y - py))
  }

  /** The candidate of `whenMove`: the pointer minus the anchor's absolute
      value on each axis, so never right of or below the pointer. */
  function Candidate(anchor: Point, px: real, py: real): (c: Point)
    ensures c.x <= px && c.y <= py
    ensures px - c.x == Abs(anchor.x) && py - c.y == Abs(anchor.y)
  {
    Point(px - Abs(anchor.x), py - Abs(anchor.y))
  }

  /** `movePosition` followed by `moveBackground`: put the lens at `c` and
      pan its background to match. */
  function MovePosition(s: State, c: Point): (r: State)
    ensures r.lens.at == c && r.lens.size == s.lens.size
    ensures r.lens.background.Panned? && InSync(r)
    ensures r.box == s.box && r.level == s.level && r.anchor == s.anchor && r.phase == s.phase
  {
    s.(lens := s.lens.(at := c, background := Panned(PanX(c.x, s.level), PanY(c.y, s.level))))
  }

  /** `whenMove`: apply the candidate when no side check rejects it,
      otherwise drop the event without clamping. */
  function WhenMove(s: State, px: real, py: real): (r: State)
    ensures var c := Candidate(s.anchor, px, py);
            !OutOfBound(s.box, s.lens.size, s.lens.at, c) ==>
              r.lens.at == c
              && r.lens.background == Panned(PanX(c.x, s.level), PanY(c.y, s.level))
    ensures OutOfBound(s.box, s.lens.size, s.lens.at, Candidate(s.anchor, px, py)) ==> r == s
    ensures r.box == s.box && r.level == s.level && r.anchor == s.anchor && r.phase == s.phase
    ensures r.lens.size == s.lens.size
    ensures InSync(s) ==> InSync(r)
  {
    var c := Candidate(s.anchor, px, py);
    if !OutOfBound(s.box, s.lens.size, s.lens.at, c) then MovePosition(s, c) else s
  }

  /** Pointer down (mouse or touch): only a press on the lens counts; it
      captures the anchor and starts a drag. */
  function Press(s: State, px: real, py: real, onLens: bool): (r: State)
    ensures !onLens ==> r == s
    ensures onLens ==> r.phase == Dragging && r.anchor == Point(s.lens.at.x - px, s.lens.at.y - py)
    ensures r.lens == s.lens && r.box == s.box && r.level == s.level
  {
    if !onLens then s else WhenDown(s, px, py).(phase := Dragging)
  }

  /** Pointer moved: handled only while a drag is in progress. */
  function Move(s: State, px: real, py: real): (r: State)
    ensures s.phase == Idle ==> r == s
    ensures s.phase == Dragging ==> r == WhenMove(s, px, py)
  {
    if s.phase == Dragging then WhenMove(s, px, py) else s
  }

  /** Pointer up: the move listener is removed; nothing else changes. */
  function Release(s: State): (r: State)
    ensures r.phase == Idle
    ensures r.lens == s.lens && r.anchor == s.anchor && r.box == s.box && r.level == s.level
  {
    s.(phase := Idle)
  }

  /** Press-then-move round trip: when the pointer is pressed at or right of
      and below the lens's top-left corner, moving to the same point yields
      the lens's position at press time as the candidate. */
  lemma PressThenMoveSamePoint(s: State, px: real, py: real)
    requires s.lens.at.x <= px && s.lens.at.y <= py
    ensures Candidate(Press(s, px, py, true).anchor, px, py) == s.lens.at
  {
  }

  /** Without that condition the round trip fails on an axis where the
      pointer is left of (or above) the lens: the candidate is mirrored
      about the pointer. */
  lemma PressThenMoveMirrors(s: State, px: real, py: real)
    ensures var c := Candidate(Press(s, px, py, true).anchor, px, py);
            && (c.x == s.lens.at.x <==> s.lens.at.x <= px)
            && (s.lens.at.x > px ==> c.x == 2.0 * px - s.lens.at.x)
            && (c.y == s.lens.at.y <==> s.lens.at.y <= py)
            && (s.lens.at.y > py ==> c.y == 2.0 * py - s.lens.at.y)
  {
  }

  /** The round trip keeps the lens where it was pressed: the move is either
      accepted in place or rejected by the top check. */
  lemma PressThenMoveKeepsLensInPlace(s: State, px: real, py: real)
    requires s.lens.at.x <= px && s.lens.at.y <= py
    ensures Move(Press(s, px, py, true), px, py).lens.at == s.lens.at
  {
    PressThenMoveSamePoint(s, px, py);
  }

  /** A move during a drag whose candidate passes all four checks is applied
      exactly; one that fails any check changes nothing; so the state changes
      only when the candidate is accepted and differs from what is shown. */
  lemma MoveAppliedIffAccepted(s: State, px: real, py: real)
    requires s.phase == Dragging
    ensures var c := Candidate(s.anchor, px, py);
            var r := Move(s, px, py);
            && (!OutOfBound(s.box, s.lens.size, s.lens.at, c) ==> r == MovePosition(s, c))
            && (OutOfBound(s.box, s.lens.size, s.lens.at, c) ==> r == s)
            && (r != s <==> !OutOfBound(s.box, s.lens.size, s.lens.at, c) && MovePosition(s, c) != s)
  {
  }

  /** Handling the same move twice gives the state of handling it once: an
      accepted move puts the lens at the candidate, and the second pass
      either re-applies it in place or is rejected by the top check. */
  lemma WhenMoveIdempotent(s: State, px: real, py: real)
    ensures WhenMove(WhenMove(s, px, py), px, py) == WhenMove(s, px, py)
  {
    var c := Candidate(s.anchor, px, py);
    if !OutOfBound(s.box, s.lens.size, s.lens.at, c) {
      StayingPutRejectedIff(s.box, s.lens.size, c);
    }
  }

  /** Scenario: box 400x300, lens 100x100 at (150, 100), level 2. Pressing at
      (200, 150) gives anchor (-50, -50); moving to (160, 120) moves the lens to
      (110, 70) and pans the background to (286, 168). */
  lemma DragScenario()
    ensures var s0 := Create(Size(400.0, 300.0), Size(100.0, 100.0), Given(Finite(2.0)), Point(150.0, 100.0));
            var s1 := Press(s0, 200.0, 150.0, true);
            var s2 := Move(s1, 160.0, 120.0);
            && s1.anchor == Point(-50.0, -50.0)
            && s2.lens.at == Point(110.0, 70.0)
            && s2.lens.background == Panned(286.0, 168.0)
  {
  }
}

=== FILE: numbers.dfy ===
/** Numeric helpers shared by the magnifier model: `Math.abs` on finite
    numbers and the result of JavaScript's unary `+` conversion. */
module Numbers {

  /** `Math.abs` restricted to finite numbers. */
  function Abs(x: real): (r: real)
    ensures r >= 0.0
    ensures r == x || r == -x
  {
    if x < 0.0 then -x else x
  }

  /** What unary `+` can produce from a data attribute: a finite number or
      NaN (an absent attribute or text that is not a number). */
  datatype JsNumber = Finite(value: real) | NaN

  /** JavaScript truthiness of a number: NaN, 0 and -0 are falsy. */
  predicate Truthy(n: JsNumber)
  {
    n.Finite? && n.value != 0.0
  }
}

=== FILE: pan.dfy ===
/** The pixel terms of the lens's `background-position`, which pan the
    magnified image as the lens moves. The page writes them as
    `calc(-1% - <term>px)`; only the term is modelled. */
module Pan {
  import opened Numbers

  /** Horizontal parallax coefficient. */
  const CoefficientX: real := 0.8

  /** Vertical parallax coefficient. */
  const CoefficientY: real := 0.7

  /** The `background-position-x` term for lens left `x`. */
  function PanX(x: real, level: real): (t: real)
    ensures x >= 0.0 ==> t == x * (1.0 + CoefficientX * level)
    ensures x <= 0.0 ==> t == x * (1.0 - CoefficientX * level)
  {
    x + Abs(x * CoefficientX) * level
  }

  /** The `background-position-y` term for lens top `y`. */
  function PanY(y: real, level: real): (t: real)
    ensures y >= 0.0 ==> t == y * (1.0 + CoefficientY * level)
    ensures y <= 0.0 ==> t == y * (1.0 - CoefficientY * level)
  {
    y + Abs(y * CoefficientY) * level
  }

  /** A lens at the origin leaves both terms at 0, whatever the level. */
  lemma PanAtOrigin(level: real)
    ensures PanX(0.0, level) == 0.0 && PanY(0.0, level) == 0.0
  {
  }

  /** With a positive level, moving the lens right or down on the
      non-negative side strictly increases the term. */
  lemma PanIncreasesOnPositiveSide(a: real, b: real, level: real)
    requires 0.0 <= a < b && level > 0.0
    ensures PanX(a, level) < PanX(b, level)
    ensures PanY(a, level) < PanY(b, level)
  {
    var kx := 1.0 + CoefficientX * level;
    var ky := 1.0 + CoefficientY * level;
    assert kx > 1.0 && ky > 1.0;
    assert b * kx - a * kx == (b - a) * kx;
    assert b * ky - a * ky == (b - a) * ky;
  }

  /** On the negative side the size of each term grows strictly with the
      distance from the origin, except at the one level where its factor
      1 - coefficient * level vanishes. */
  lemma PanGrowsOnNegativeSide(a: real, b: real, level: real)
    requires b < a <= 0.0
    ensures level != 1.25 ==> Abs(PanX(b, level)) > Abs(PanX(a, level))
    ensures level != 10.0 / 7.0 ==> Abs(PanY(b, level)) > Abs(PanY(a, level))
  {
    var kx := 1.0 - CoefficientX * level;
    var ky := 1.0 - CoefficientY * level;
    assert PanX(a, level) == a * kx && PanX(b, level) == b * kx;
    assert PanY(a, level) == a * ky && PanY(b, level) == b * ky;
    assert level != 1.25 ==> kx != 0.0;
    assert level != 10.0 / 7.0 ==> ky != 0.0;
    ScaledDistanceGrows(a, b, kx);
    ScaledDistanceGrows(a, b, ky);
  }

  /** Scaling two non-positive values by the same nonzero factor keeps the
      one further from the origin further. */
  lemma ScaledDistanceGrows(a: real, b: real, k: real)
    requires b < a <= 0.0
    ensures k != 0.0 ==> Abs(b * k) > Abs(a * k)
  {
    if k > 0.0 {
      assert b * k - a * k == (b - a) * k;
      assert (b - a) * k < 0.0;
    } else if k < 0.0 {
      assert b * k - a * k == (b - a) * k;
      assert (b - a) * k > 0.0;
    }
  }

  /** The term is not monotone in the distance from the origin on the
      negative side: at level 1.25 every negative left gives a term of 0. */
  lemma PanXFlatOnNegativeSide(x: real)
    requires x <= 0.0
    ensures PanX(x, 1.25) == 0.0
  {
  }
}

=== FILE: session.dfy ===
/** A magnifier driven by a sequence of pointer events, the way the
    document-level mouse and touch listeners deliver them. */
module Session {
  import opened Layout
  import opened Magnify

  /** A pointer event. `Down` carries whether its target is inside the lens. */
  datatype Event = Down(px: real, py: real, onLens: bool) | MoveTo(px: real, py: real) | Up

  /** One event handled by the listeners. */
  function Step(s: State, e: Event): (r: State)
    ensures r.box == s.box && r.level == s.level && r.lens.size == s.lens.size
    ensures InSync(s) ==> InSync(r)
    ensures !e.Down? ==> r.anchor == s.anchor
    ensures e.MoveTo? && s.phase == Idle ==> r == s
    ensures e == Up ==> r.phase == Idle && r.lens == s.lens
    ensures e.Down? && e.onLens ==> r.phase == Dragging && r.lens == s.lens
    ensures r.lens.background == Initial ==> r.lens == s.lens
  {
    match e
    case Down(px, py, onLens) => Press(s, px, py, onLens)
    case MoveTo(px, py) => Move(s, px, py)
    case Up => Release(s)
  }

  /** Only pointer moves, no press or release. */
  predicate AllMoves(events: seq<Event>)
  {
    forall i :: 0 <= i < |events| ==> events[i].MoveTo?
  }

  /** No press among the events. */
  predicate NoPress(events: seq<Event>)
  {
    forall i :: 0 <= i < |events| ==> !events[i].Down?
  }

  /** The events handled in order. The box, the zoom level and the lens size
      are fixed for the magnifier's lifetime; the background stays in step
      with the lens; moves outside a drag are ignored; only a press changes
      the anchor; the lens has not moved while its background still has its
      initial value; and a final release leaves no drag in progress. */
  function Run(s: State, events: seq<Event>): (r: State)
    ensures r.box == s.box && r.level == s.level && r.lens.size == s.lens.size
    ensures InSync(s) ==> InSync(r)
    ensures s.phase == Idle && AllMoves(events) ==> r == s
    ensures NoPress(events) ==> r.anchor == s.anchor
    ensures r.lens.background == Initial ==> r.lens == s.lens
    ensures |events| > 0 && events[|events| - 1] == Up ==> r.phase == Idle
    decreases |events|
  {
    if |events| == 0 then s
    else
      assert AllMoves(events) ==> AllMoves(events[1..]) by {
        if AllMoves(events) {
          forall i | 0 <= i < |events[1..]| ensures events[1..][i].MoveTo? {
            assert events[1..][i] == events[i + 1];
          }
        }
      }
      assert NoPress(events) ==> NoPress(events[1..]) by {
        if NoPress(events) {
          forall i | 0 <= i < |events[1..]| ensures !events[1..][i].Down? {
            assert events[1..][i] == events[i + 1];
          }
        }
      }
      Run(Step(s, events[0]), events[1..])
  }

  /** Handling two batches of events one after the other is handling their
      concatenation. */
  lemma {:induction false} RunAppend(s: State, a: seq<Event>, b: seq<Event>)
    ensures Run(s, a + b) == Run(Run(s, a), b)
    decreases |a|
  {
    if |a| == 0 {
      assert a + b == b;
    } else {
      assert (a + b)[1..] == a[1..] + b;
      RunAppend(Step(s, a[0]), a[1..], b);
    }
  }

  /** After a release, further moves change nothing until the next press on
      the lens. */
  lemma {:induction false} ReleaseFreezesLens(s: State, moves: seq<Event>)
    requires AllMoves(moves)
    ensures Run(s, [Up] + moves) == Release(s)
  {
    RunAppend(s, [Up], moves);
    assert Run(s, [Up]) == Run(Release(s), []);
  }

  /** A press outside the lens while idle starts nothing: the moves that
      follow are ignored as well. */
  lemma {:induction false} PressOffLensIgnored(s: State, px: real, py: real, moves: seq<Event>)
    requires s.phase == Idle && AllMoves(moves)
    ensures Run(s, [Down(px, py, false)] + moves) == s
  {
    RunAppend(s, [Down(px, py, false)], moves);
    assert Run(s, [Down(px, py, false)]) == Run(s, []);
  }

  /** Every state reached from a freshly created magnifier keeps the
      background in step with the lens and the level it was created with. */
  lemma ReachableStatesInSync(box: Size, lensSize: Size, zoom: Zoom.ZoomAttribute, start: Point, events: seq<Event>)
    ensures var r := Run(Create(box, lensSize, zoom, start), events);
            InSync(r) && r.level == Zoom.LevelFromAttribute(zoom) && r.level != 0.0
  {
  }
}

=== FILE: zoom.dfy ===
/** The zoom level read once from the box's `data-zoom` attribute, and the
    background size of the lens that it scales. */
module Zoom {
  import opened Numbers
  import opened Layout

  /** The `data-zoom` attribute as the constructor sees it. */
  datatype ZoomAttribute = Absent | Given(number: JsNumber)

  /** Unary `+` on the attribute: `+undefined` is NaN. */
  function ToNumber(a: ZoomAttribute): (n: JsNumber)
    ensures n.NaN? <==> (a == Absent || a == Given(NaN))
    ensures a.Given? ==> n == a.number
  {
    match a
    case Absent => NaN
    case Given(n) => n
  }

  /** `+element.dataset.zoom || 1`: the parsed number when it is truthy,
      otherwise 1. */
  function LevelFromAttribute(a: ZoomAttribute): (level: real)
    ensures level != 0.0
    ensures Truthy(ToNumber(a)) <==> (a.Given? && a.number == Finite(level) && level != 0.0)
    ensures !Truthy(ToNumber(a)) ==> level == 1.0
  {
    var n := ToNumber(a);
    if Truthy(n) then n.value else 1.0
  }

  /** A negative attribute is kept as it is: `||` only replaces falsy values. */
  lemma NegativeLevelIsKept(v: real)
    requires v < 0.0
    ensures LevelFromAttribute(Given(Finite(v))) == v
    ensures LevelFromAttribute(Given(Finite(v))) < 0.0
  {
  }

  /** An absent attribute, a NaN and a zero all fall back to level 1. */
  lemma FalsyAttributeDefaultsToOne(a: ZoomAttribute)
    requires a == Absent || a == Given(NaN) || a == Given(Finite(0.0))
    ensures LevelFromAttribute(a) == 1.0
  {
  }

  /** The `background-size` of the lens: each side of the box scaled by the
      level. */
  function BackgroundSize(box: Size, level: real): (s: Size)
    ensures s.width == level * box.width && s.height == level * box.height
    ensures level == 1.0 ==> s == box
    ensures s.width * box.height == s.height * box.width
    ensures box.width > 0.0 && level > 0.0 ==> s.width > 0.0
    ensures level > 1.0 && box.width > 0.0 ==> s.width > box.width
    ensures level > 1.0 && box.height > 0.0 ==> s.height > box.height
  {
    Size(box.width * level, box.height * level)
  }

  /** Without a usable zoom attribute the lens background has the box's own size. */
  lemma DefaultZoomShowsBoxSize(box: Size, a: ZoomAttribute)
    requires !Truthy(ToNumber(a))
    ensures BackgroundSize(box, LevelFromAttribute(a)) == box
  {
  }
}
